=== FILE: README.md ===
# Supervised fine-tuning data pipeline — Dafny model

This project models the data-shaping pipeline of `train/train_SFT.py`, a
supervised fine-tuning driver for a causal language model. The pipeline turns
loaded instruction records into loss-masked, right-padded batches:

1. **Dataset construction** (`SupervisedDataset.__init__`). The loaded records
   are shuffled with `random.sample` and cut to `data_length`. If the first kept
   record has no `instruction` field, every record is renamed from
   `{query, response}` to `{instruction, output}`. Each record then becomes a
   *source*: the empty string for an empty instruction, else the
   `PROMPT_DICT["prompt_input"]` template with the instruction filled in. It also
   becomes a *target*: the output followed by the tokenizer's end-of-sequence
   string.
2. **Label masking** (`_tokenize_fn`, `preprocess`). Each `source + target` is
   tokenized. The non-pad ids of the tokenized source are counted. The labels
   are a copy of the ids whose first `source_len` positions become
   `IGNORE_INDEX` (-100).
3. **Collation** (`DataCollatorForSupervisedDataset`). The ids rows are
   right-padded with the pad id and the labels rows with -100, both to the
   longest row. The attention mask is `input_ids != pad_id`.

The tokenizer is a datatype holding an uninterpreted `encode: string -> seq<int>`,
restricted by a subset type to encodings no longer than `model_max_length`. This
is the effect of `truncation=True`. The datatype also holds the pad id and the
end-of-sequence string, which both the dataset (for targets) and the collator use. Everything else is written out.

Python semantics the code relies on are modelled explicitly:
- `zip` stops at the shorter list.
- `xs[:n]` with a negative `n` drops the last `-n` elements.
- `xs[i]` accepts negative indices.
- `list_data_dict[0]` on an empty list raises `IndexError`.
- A missing field raises `KeyError`, in the code's evaluation order.
- `pad_sequence` raises on an empty batch.

The raising cases become `Result` errors: an out-of-range index, the
`IndexError` on `list_data_dict[0]`, a `KeyError`, and an empty `pad_sequence`.
The other cases are ordinary Python results and are modelled as such.

The attention mask and `source_len` are computed by comparing values with the
pad id, not from lengths. So a genuine token equal to the pad id is dropped from
the mask and from the source count. The model states these facts exactly
(`Tokenizers.NonPadLength`, `Collate.AttentionMaskCount`,
`Masking.PadInSourceLeaksPrompt`). It does not assume that the mask count equals
the row length. When the example's ids begin with the source's ids, the masked
label prefix covers the whole tokenized source exactly when the pad id does not
occur in it (`Masking.MaskedExactlySource` versus `Masking.PadInSourceLeaksPrompt`).

Modules: `Results` (Result/Option), `Seqs` (counting, filling, maximum),
`PyList` (Python list semantics), `Prompt` (template and rendering), `Dataset`
(record normalisation and dataset construction), `Tokenizers`, `Masking`
(`_tokenize_fn`/`preprocess`), `Collate` (the collator).

## Model

| member | source | states |
|---|---|---|
| `Prompt.FormatPromptInput` | train/train_SFT.py:47-52 | the rendered prompt starts with the `<|user|>:` line, ends with the fixed assistant line, and holds the instruction verbatim between them |
| `Prompt.RenderSource` | train/train_SFT.py:186-191 | the source is empty exactly when the instruction is empty; otherwise it contains the instruction verbatim and is longer than it |
| `Prompt.ParseRenderSource` | train/train_SFT.py:186-191 | rendering is injective: the instruction is recovered from any rendered source, the empty case included |
| `Prompt.RenderParseSource` | train/train_SFT.py:186-191 | a string parses to an instruction exactly when it is that instruction's rendering |
| `Prompt.RenderTarget` | train/train_SFT.py:192 | the target is the output followed by the end-of-sequence string, with lengths adding up |
| `Prompt.StripRenderTarget` | train/train_SFT.py:192 | removing the end-of-sequence suffix from a target gives back the output |
| `Dataset.ConvertRecord` | train/train_SFT.py:180 | a `query`/`response` record becomes a record with exactly the keys `instruction` and `output`, holding the same values; a missing `query` is reported before a missing `response` |
| `Dataset.ConvertAll` | train/train_SFT.py:180 | conversion succeeds exactly when every record converts; then record k becomes the renamed record k, in order; otherwise the error is that of the first failing record |
| `Dataset.NormaliseRecords` | train/train_SFT.py:173-180 | an empty list fails with `IndexError`; if the first record has `instruction` the records are kept unchanged; otherwise the list converts exactly when every record has `query` and `response`, each record is renamed in order, and a failure is the `KeyError` of the first record that does not convert |
| `Dataset.BuildExamples` | train/train_SFT.py:186-192 | succeeds exactly when every record has `instruction` and `output`; a missing `instruction` anywhere gives `KeyError('instruction')`, and otherwise a missing `output` gives `KeyError('output')`; on success source k is the rendering of record k's instruction and target k is its output followed by the tokenizer's end-of-sequence string |
| `Dataset.MakeSupervisedData` | train/train_SFT.py:165-192 | construction fails with `IndexError` exactly when the shuffled and cut list is empty; a non-empty kept list succeeds exactly when every kept record has `instruction` and `output` (first kept record has `instruction`) or `query` and `response` (otherwise), and fails with a `KeyError` for one of those keys otherwise; on success it yields as many sources and targets as `list[:data_length]` keeps |
| `Dataset.SupervisedDataContent` | train/train_SFT.py:165-192 | example k of a constructed dataset renders the k-th shuffled record: its `instruction` and `output` when the first shuffled record has `instruction`, else its `query` and `response` |
| `Dataset.GetItem` | train/train_SFT.py:203-204 | item i is the pair (source, target) at Python index i, negative indices counting from the end; other indices fail |
| `Dataset.ExamplesRecoverRecords` | train/train_SFT.py:186-192 | the k-th source parses back to record k's instruction and the k-th target strips back to record k's output |
| `Dataset.QueryResponseExamples` | train/train_SFT.py:173-192 | when the first record lacks `instruction` and all records have `query` and `response`, construction succeeds and example k carries record k's query and response unchanged |
| `PyList.SliceTo` | train/train_SFT.py:167 | `xs[:n]` is a prefix of `xs` of length `min(n, len)` for `n >= 0` and `max(0, len + n)` otherwise |
| `PyList.Sample` | train/train_SFT.py:165 | shuffling by a permutation keeps the length and the multiset of records, and position k holds the record at index `perm[k]` |
| `PyList.PickMultiset` | train/train_SFT.py:165 | reordering by two index lists with equal multisets yields equal multisets of elements |
| `Seqs.CountNonPadAllIff` | train/train_SFT.py:121-123 | the non-pad count equals the length exactly when the pad id does not occur |
| `Tokenizers.Tokenize` | train/train_SFT.py:110-120 | a tokenized text has at most `model_max_length` ids |
| `Tokenizers.NonPadLength` | train/train_SFT.py:121-123 | `source_len` is at most the tokenized length, and equals it exactly when the pad id is absent from the tokenized text |
| `Masking.MaskPrefix` | train/train_SFT.py:141-143 | the labels have the ids' length; position i is `IGNORE_INDEX` when i is below the count, otherwise the id at i |
| `Masking.ExampleLabels` | train/train_SFT.py:138-143 | each labels row is as long as its ids row, is `IGNORE_INDEX` below the source's non-pad count and equals the id at every other position |
| `Masking.Preprocess` | train/train_SFT.py:132-144 | `min(len(sources), len(targets))` examples are produced; ids row k is the tokenized `source + target`, unchanged by masking; labels row k has the same length and is `IGNORE_INDEX` below the source's non-pad count and the id elsewhere |
| `Masking.MaskedExactlySource` | train/train_SFT.py:138-143 | if the example encodes as the source's ids followed by a tail and no source id is the pad id, the labels are exactly `IGNORE_INDEX` over the source followed by the tail |
| `Masking.PadInSourceLeaksPrompt` | train/train_SFT.py:121-143 | if a source id equals the pad id, the count falls short of the source length and the remaining source ids stay in the labels |
| `Collate.PadSequence` | train/train_SFT.py:236-239 | every padded row has the longest row's length, keeps its original entries as a prefix, and holds the padding value after them |
| `Collate.AttentionMask` | train/train_SFT.py:243 | the mask has the shape of the ids and is true exactly where the id differs from the pad id |
| `Collate.PadBatch` | train/train_SFT.py:214-221 | an empty batch fails; otherwise ids, labels and mask have one row per instance; each ids row keeps its original row as a prefix and is filled with the pad id up to the longest ids row; each labels row keeps its original as a prefix and is filled with `IGNORE_INDEX` up to the longest labels row; the mask is the value comparison of the padded ids with the pad id |
| `Collate.NaiveCollate` | train/train_SFT.py:212-222 | `naive__call__` succeeds exactly for non-empty batches; then every ids row is the instance's ids right-padded with the pad id to the longest instance's ids length, every labels row is the instance's labels right-padded with `IGNORE_INDEX` to the longest instance's labels length, and the mask is the value comparison of the padded ids with the pad id |
| `Collate.NaiveCollateRows` | train/train_SFT.py:214-221 | the rows `PadBatch` makes of the instances' own rows are each instance's row padded to the longest instance row, with the value-compared mask |
| `Collate.BatchWidth` | train/train_SFT.py:236-239 | the batch width is the length of the longest tokenized example, and is at most `model_max_length` |
| `Collate.CollateBatch` | train/train_SFT.py:224-244 | for a non-empty batch, all three tensors have one row per instance and the longest example's width; ids are right-padded with the pad id; labels are `IGNORE_INDEX` below the source count and in the padding, and the id elsewhere; the mask is the value comparison with the pad id |
| `Collate.WidthsAgree` | train/train_SFT.py:233-239 | rows as long as the batch's tokenized examples have the batch width as their maximum, so the ids and labels are padded to the same width |
| `Collate.PaddedRowsCollated` | train/train_SFT.py:233-243 | padding the preprocessed ids and labels and masking the padded ids yields, row by row, the collated rows of the batch |
| `Collate.PadSequenceNoOp` | train/train_SFT.py:236-239 | padding rows that already share one length changes nothing |
| `Collate.PadSequenceIdempotent` | train/train_SFT.py:236-239 | padding an already padded batch again changes nothing |
| `Collate.NaiveCollateNoOp` | train/train_SFT.py:212-217 | `naive__call__` on instances whose ids rows share one length and whose labels rows share another returns their ids and labels rows unchanged |
| `Collate.AttentionMaskCount` | train/train_SFT.py:236-243 | the true entries of a collated mask row equal the example's non-pad ids; they equal the example's length exactly when the pad id does not occur in it |
| `Collate.CollatedRowMaskCount` | train/train_SFT.py:236-243 | in any collated row the mask has as many true entries as the example has non-pad ids, and as many as its length exactly when the pad id does not occur in it |
| `Collate.MaskRowCount` | train/train_SFT.py:236-243 | a row right-padded with the pad id, compared pointwise with the pad id, has as many true entries as the unpadded row has non-pad ids |

## Left out

- File loading (`_make_r_io_base`, `jload`, the JSON-array-then-JSONL fallback) is I/O and exception-driven parsing through the `json` library. The model starts from the loaded list of records.
- Records are maps from strings to strings. Non-string JSON values, and their `str()` rendering by `format_map`, are not modelled.
- Seeding (`seed_torch` and the `random.seed` calls) is global RNG state. The permutation `random.sample` draws is an input to `PyList.Sample`.
- Model and tokenizer loading, special-token registration, `smart_tokenizer_and_embedding_resize` and `resize_token_embeddings` are foreign library calls and floating-point embedding numerics.
- The tokenizer's subword algorithm is the uninterpreted `encode` field. Truncation is modelled only as its length bound, not as which ids it keeps.
- `padding_side="left"` is not modelled. `pad_sequence` always pads on the right, so only right padding is modelled.
- `Trainer` construction, training, `save_state` and `safe_save_model_for_hf_trainer` are framework calls and checkpoint I/O.
- Dead code is not modelled: `get_input` is never called, the first `sources` comprehension is overwritten (its only observable effect, `KeyError('instruction')` for a record without `instruction`, is the error `Dataset.BuildExamples` reports), and `naive__getitem__` reads attributes that do not exist.
- `__len__` is the plain function `Dataset.Length`, with no contract of its own.

=== FILE: collate.dfy ===
/**
 * `DataCollatorForSupervisedDataset`: right-padding of a batch with
 * `pad_sequence(batch_first=True)` and the value-compared attention mask.
 */
module Collate {
  import opened Results
  import opened Seqs
  import opened Tokenizers
  import opened Masking

  /** A collated batch: three tensors, each a sequence of rows. */
  datatype Batch = Batch(inputIds: seq<seq<int>>, labels: seq<seq<int>>, attentionMask: seq<seq<bool>>)

  /** `pad_sequence` raises on an empty list of sequences. */
  datatype CollateError = EmptyBatch

  /** One already-tokenized instance, as `naive__call__` receives it. */
  datatype Instance = Instance(inputIds: seq<int>, labels: seq<int>)

  /** `row` extended on the right with `v` up to `width`. */
  function PadRow(row: seq<int>, width: nat, v: int): seq<int>
    requires |row| <= width
  {
    row + Fill(width - |row|, v)
  }

  /**
   * `pad_sequence(rows, batch_first=True, padding_value=v)`: every row
   * right-padded to the longest row's length. `pad_sequence` raises on an
   * empty list; here that gives `[]`, and `PadBatch` reports the error.
   */
  function PadSequence(rows: seq<seq<int>>, v: int): (padded: seq<seq<int>>)
    ensures |padded| == |rows|
    ensures AllOfLength(padded, MaxLen(rows))
    ensures forall b :: 0 <= b < |rows| ==> padded[b][..|rows[b]|] == rows[b]
    ensures forall b, j :: 0 <= b < |rows| && |rows[b]| <= j < MaxLen(rows) ==> padded[b][j] == v
  {
    seq(|rows|, b requires 0 <= b < |rows| => PadRow(rows[b], MaxLen(rows), v))
  }

  /** `input_ids.ne(pad_id)`: true exactly where the id differs from the pad id. */
  function AttentionMask(ids: seq<seq<int>>, padId: int): (mask: seq<seq<bool>>)
    ensures |mask| == |ids|
    ensures forall b :: 0 <= b < |ids| ==> |mask[b]| == |ids[b]|
    ensures forall b, j :: 0 <= b < |ids| && 0 <= j < |ids[b]| ==> mask[b][j] == (ids[b][j] != padId)
  {
    seq(|ids|, b requires 0 <= b < |ids| => seq(|ids[b]|, j requires 0 <= j < |ids[b]| => ids[b][j] != padId))
  }

  /** The padding and masking shared by `naive__call__` and `__call__`. */
  function PadBatch(tk: Tokenizer, inputIds: seq<seq<int>>, labels: seq<seq<int>>): (r: Result<Batch, CollateError>)
    requires |inputIds| == |labels|
    ensures r.Ok? <==> |inputIds| > 0
    ensures r.Ok? ==> |r.value.inputIds| == |r.value.labels| == |r.value.attentionMask| == |inputIds|
    ensures r.Ok? ==> AllOfLength(r.value.inputIds, MaxLen(inputIds)) && AllOfLength(r.value.labels, MaxLen(labels))
    ensures r.Ok? ==> AllOfLength(r.value.attentionMask, MaxLen(inputIds))
    ensures r.Ok? ==> forall b :: 0 <= b < |inputIds| ==> r.value.inputIds[b][..|inputIds[b]|] == inputIds[b]
    ensures r.Ok? ==> forall b, j :: 0 <= b < |inputIds| && |inputIds[b]| <= j < MaxLen(inputIds) ==>
                        r.value.inputIds[b][j] == tk.padId
    ensures r.Ok? ==> forall b :: 0 <= b < |labels| ==> r.value.labels[b][..|labels[b]|] == labels[b]
    ensures r.Ok? ==> forall b, j :: 0 <= b < |labels| && |labels[b]| <= j < MaxLen(labels) ==>
                        r.value.labels[b][j] == IgnoreIndex
    ensures r.Ok? ==> forall b, j :: 0 <= b < |inputIds| && 0 <= j < MaxLen(inputIds) ==>
                        r.value.attentionMask[b][j] == (r.value.inputIds[b][j] != tk.padId)
  {
    if |inputIds| == 0 then Err(EmptyBatch)
    else
      var ids := PadSequence(inputIds, tk.padId);
      Ok(Batch(ids, PadSequence(labels, IgnoreIndex), AttentionMask(ids, tk.padId)))
  }

  /** `row` is `original` right-padded with `v` to width `w`. */
  predicate PaddedTo(row: seq<int>, original: seq<int>, w: nat, v: int) {
    && |original| <= w && |row| == w
    && row[..|original|] == original
    && forall j :: |original| <= j < w ==> row[j] == v
  }

  /**
   * `naive__call__`: pads already-tokenized instances. Ids and labels are
   * padded separately, each to its own longest row.
   */
  function NaiveCollate(tk: Tokenizer, instances: seq<Instance>): (r: Result<Batch, CollateError>)
    ensures r.Ok? <==> |instances| > 0
    ensures r.Ok? ==> |r.value.inputIds| == |r.value.labels| == |r.value.attentionMask| == |instances|
    ensures r.Ok? ==> var wi, wl := |r.value.inputIds[0]|, |r.value.labels[0]|;
              && (exists c :: 0 <= c < |instances| && |instances[c].inputIds| == wi)
              && (exists c :: 0 <= c < |instances| && |instances[c].labels| == wl)
              && forall b :: 0 <= b < |instances| ==>
                   && PaddedTo(r.value.inputIds[b], instances[b].inputIds, wi, tk.padId)
                   && PaddedTo(r.value.labels[b], instances[b].labels, wl, IgnoreIndex)
                   && |r.value.attentionMask[b]| == wi
                   && forall j :: 0 <= j < wi ==>
                        r.value.attentionMask[b][j] == (r.value.inputIds[b][j] != tk.padId)
  {
    var ids := seq(|instances|, b requires 0 <= b < |instances| => instances[b].inputIds);
    var labels := seq(|instances|, b requires 0 <= b < |instances| => instances[b].labels);
    var r := PadBatch(tk, ids, labels);
    if r.Err? then r
    else
      NaiveCollateRows(tk, instances, ids, labels, r.value);
      r
  }

  /** The rows `PadBatch` makes of the instances' own rows, as `NaiveCollate` states them. */
  lemma NaiveCollateRows(tk: Tokenizer, instances: seq<Instance>, ids: seq<seq<int>>, labels: seq<seq<int>>,
                         batch: Batch)
    requires |ids| == |labels| == |instances| > 0
    requires forall b :: 0 <= b < |instances| ==> ids[b] == instances[b].inputIds && labels[b] == instances[b].labels
    requires PadBatch(tk, ids, labels) == Ok(batch)
    ensures var wi, wl := |batch.inputIds[0]|, |batch.labels[0]|;
            && (exists c :: 0 <= c < |instances| && |instances[c].inputIds| == wi)
            && (exists c :: 0 <= c < |instances| && |instances[c].labels| == wl)
            && forall b :: 0 <= b < |instances| ==>
                 && PaddedTo(batch.inputIds[b], instances[b].inputIds, wi, tk.padId)
                 && PaddedTo(batch.labels[b], instances[b].labels, wl, IgnoreIndex)
                 && |batch.attentionMask[b]| == wi
                 && forall j :: 0 <= j < wi ==> batch.attentionMask[b][j] == (batch.inputIds[b][j] != tk.padId)
  {
    var wi, wl := MaxLen(ids), MaxLen(labels);
    var ci :| 0 <= ci < |ids| && |ids[ci]| == wi;
    var cl :| 0 <= cl < |labels| && |labels[cl]| == wl;
    assert |instances[ci].inputIds| == wi && |instances[cl].labels| == wl;
    forall b | 0 <= b < |instances|
      ensures PaddedTo(batch.inputIds[b], instances[b].inputIds, wi, tk.padId)
      ensures PaddedTo(batch.labels[b], instances[b].labels, wl, IgnoreIndex)
    {
      assert ids[b] == instances[b].inputIds && labels[b] == instances[b].labels;
    }
  }

  /** The longest tokenized example of a batch of (source, target) pairs. */
  function BatchWidth(tk: Tokenizer, instances: seq<(string, string)>): (w: nat)
    ensures w <= tk.modelMaxLength
    ensures forall b :: 0 <= b < |instances| ==> |ExampleIds(tk, instances[b].0, instances[b].1)| <= w
    ensures |instances| > 0 ==> exists b :: 0 <= b < |instances| && |ExampleIds(tk, instances[b].0, instances[b].1)| == w
  {
    if |instances| == 0 then 0
    else
      var rest := BatchWidth(tk, instances[1..]);
      assert forall b :: 1 <= b < |instances| ==> instances[b] == instances[1..][b - 1];
      var first := |ExampleIds(tk, instances[0].0, instances[0].1)|;
      if first >= rest then first else rest
  }

  /**
   * Row `b` of a collated batch of width `w` for the pair (`source`, `target`):
   * the example's ids padded with the pad id; labels hidden below the
   * source's non-pad count and over the padding, the id elsewhere; the mask
   * true exactly where the padded id is not the pad id.
   */
  predicate CollatedRow(tk: Tokenizer, source: string, target: string, w: nat,
                        ids: seq<int>, labels: seq<int>, mask: seq<bool>)
  {
    var ex := ExampleIds(tk, source, target);
    && |ex| <= w && |ids| == w && |labels| == w && |mask| == w
    && (forall j :: 0 <= j < w ==> ids[j] == (if j < |ex| then ex[j] else tk.padId))
    && (forall j :: 0 <= j < w ==>
          labels[j] == (if j < |ex| && NonPadLength(tk, source) <= j then ex[j] else IgnoreIndex))
    && (forall j :: 0 <= j < w ==> mask[j] == (ids[j] != tk.padId))
  }

  /**
   * `__call__`: tokenizes and masks the (source, target) pairs of the batch
   * with `preprocess`, then pads. Every tensor has one row per instance,
   * all of the longest example's length; the labels are padded to the same
   * width as the ids because each labels row is as long as its ids row.
   */
  function CollateBatch(tk: Tokenizer, instances: seq<(string, string)>): (r: Result<Batch, CollateError>)
    ensures r.Ok? <==> |instances| > 0
    ensures r.Ok? ==> |r.value.inputIds| == |r.value.labels| == |r.value.attentionMask| == |instances|
    ensures r.Ok? ==> forall b :: 0 <= b < |instances| ==>
              CollatedRow(tk, instances[b].0, instances[b].1, BatchWidth(tk, instances),
                          r.value.inputIds[b], r.value.labels[b], r.value.attentionMask[b])
  {
    var sources := seq(|instances|, b requires 0 <= b < |instances| => instances[b].0);
    var targets := seq(|instances|, b requires 0 <= b < |instances| => instances[b].1);
    var pre := Preprocess(tk, sources, targets);
    var r := PadBatch(tk, pre.inputIds, pre.labels);
    if r.Err? then r
    else
      PaddedRowsCollated(tk, instances, pre, r.value);
      r
  }

  /** The rows `PadBatch` makes of the preprocessed batch are the collated rows. */
  lemma PaddedRowsCollated(tk: Tokenizer, instances: seq<(string, string)>, pre: Tokenized, batch: Batch)
    requires |pre.inputIds| == |pre.labels| == |instances|
    requires forall b :: 0 <= b < |instances| ==>
               pre.inputIds[b] == ExampleIds(tk, instances[b].0, instances[b].1)
               && pre.labels[b] == ExampleLabels(tk, instances[b].0, instances[b].1)
    requires PadBatch(tk, pre.inputIds, pre.labels) == Ok(batch)
    ensures forall b :: 0 <= b < |instances| ==>
              CollatedRow(tk, instances[b].0, instances[b].1, BatchWidth(tk, instances),
                          batch.inputIds[b], batch.labels[b], batch.attentionMask[b])
  {
    var w := BatchWidth(tk, instances);
    WidthsAgree(tk, instances, pre.inputIds);
    WidthsAgree(tk, instances, pre.labels);
    forall b | 0 <= b < |instances|
      ensures CollatedRow(tk, instances[b].0, instances[b].1, w,
                          batch.inputIds[b], batch.labels[b], batch.attentionMask[b])
    {
      var ex := ExampleIds(tk, instances[b].0, instances[b].1);
      assert batch.inputIds[b] == PadRow(ex, w, tk.padId);
      assert batch.labels[b] == PadRow(ExampleLabels(tk, instances[b].0, instances[b].1), w, IgnoreIndex);
    }
  }

  /** Rows with the lengths of the batch's tokenized examples have the batch's width as maximum. */
  lemma WidthsAgree(tk: Tokenizer, instances: seq<(string, string)>, rows: seq<seq<int>>)
    requires |rows| == |instances|
    requires forall b :: 0 <= b < |rows| ==> |rows[b]| == |ExampleIds(tk, instances[b].0, instances[b].1)|
    ensures MaxLen(rows) == BatchWidth(tk, instances)
  {
    var m, w := MaxLen(rows), BatchWidth(tk, instances);
    if |rows| > 0 {
      var b1 :| 0 <= b1 < |rows| && |rows[b1]| == m;
      var b2 :| 0 <= b2 < |rows| && |ExampleIds(tk, instances[b2].0, instances[b2].1)| == w;
      assert m <= w && w <= m;
    }
  }

  /** Padding a batch whose rows already share one length changes nothing. */
  lemma PadSequenceNoOp(rows: seq<seq<int>>, v: int, n: nat)
    requires AllOfLength(rows, n)
    ensures PadSequence(rows, v) == rows
  {
    var padded := PadSequence(rows, v);
    if |rows| > 0 {
      var b0 :| 0 <= b0 < |rows| && |rows[b0]| == MaxLen(rows);
      forall b | 0 <= b < |rows|
        ensures padded[b] == rows[b]
      {
        assert padded[b] == padded[b][..|rows[b]|];
      }
    }
  }

  /** Padding is idempotent. */
  lemma PadSequenceIdempotent(rows: seq<seq<int>>, v: int)
    ensures PadSequence(PadSequence(rows, v), v) == PadSequence(rows, v)
  {
    PadSequenceNoOp(PadSequence(rows, v), v, MaxLen(rows));
  }

  /**
   * `naive__call__` on instances whose ids rows share one length and whose
   * labels rows share another returns them unpadded.
   */
  lemma NaiveCollateNoOp(tk: Tokenizer, instances: seq<Instance>, ni: nat, nl: nat)
    requires |instances| > 0
    requires forall b :: 0 <= b < |instances| ==> |instances[b].inputIds| == ni && |instances[b].labels| == nl
    ensures NaiveCollate(tk, instances).Ok?
    ensures forall b :: 0 <= b < |instances| ==>
              && NaiveCollate(tk, instances).value.inputIds[b] == instances[b].inputIds
              && NaiveCollate(tk, instances).value.labels[b] == instances[b].labels
  {
    var ids := seq(|instances|, b requires 0 <= b < |instances| => instances[b].inputIds);
    var labels := seq(|instances|, b requires 0 <= b < |instances| => instances[b].labels);
    PadSequenceNoOp(ids, tk.padId, ni);
    PadSequenceNoOp(labels, IgnoreIndex, nl);
  }

  /**
   * The attention mask of a collated row has as many `true` entries as the
   * example's ids have non-pad entries: all of them exactly when the pad id
   * does not occur among the example's own ids.
   */
  lemma AttentionMaskCount(tk: Tokenizer, instances: seq<(string, string)>, b: nat)
    requires b < |instances|
    ensures CollateBatch(tk, instances).Ok?
    ensures var ids := ExampleIds(tk, instances[b].0, instances[b].1);
            var trues := CountTrue(CollateBatch(tk, instances).value.attentionMask[b]);
            && trues == CountNonPad(ids, tk.padId) <= |ids|
            && (trues == |ids| <==> tk.padId !in ids)
  {
    var batch := CollateBatch(tk, instances).value;
    CollatedRowMaskCount(tk, instances[b].0, instances[b].1, BatchWidth(tk, instances),
                         batch.inputIds[b], batch.labels[b], batch.attentionMask[b]);
  }

  /** `AttentionMaskCount` for one collated row. */
  lemma CollatedRowMaskCount(tk: Tokenizer, source: string, target: string, w: nat,
                             ids: seq<int>, labels: seq<int>, mask: seq<bool>)
    requires CollatedRow(tk, source, target, w, ids, labels, mask)
    ensures var ex := ExampleIds(tk, source, target);
            && CountTrue(mask) == CountNonPad(ex, tk.padId) <= |ex|
            && (CountTrue(mask) == |ex| <==> tk.padId !in ex)
  {
    var ex := ExampleIds(tk, source, target);
    CountNonPadAllIff(ex, tk.padId);
    forall j | 0 <= j < w
      ensures ids[j] == (ex + Fill(w - |ex|, tk.padId))[j]
    {
    }
    MaskRowCount(ex, ids, mask, tk.padId, w);
  }

  /** The count behind `AttentionMaskCount`, for one padded row and its mask. */
  lemma MaskRowCount(ids: seq<int>, row: seq<int>, mask: seq<bool>, padId: int, w: nat)
    requires |ids| <= w && |row| == |mask| == w
    requires forall j :: 0 <= j < w ==> row[j] == (ids + Fill(w - |ids|, padId))[j]
    requires forall j :: 0 <= j < w ==> mask[j] == (row[j] != padId)
    ensures CountTrue(mask) == CountNonPad(ids, padId)
  {
    var fill := Fill(w - |ids|, padId);
    assert row == ids + fill;
    assert mask == seq(|row|, j requires 0 <= j < |row| => row[j] != padId);
    CountTrueOfNotPad(row, padId);
    CountNonPadAppend(ids, fill, padId);
    CountNonPadFill(w - |ids|, padId);
  }
}

=== FILE: dataset.dfy ===
/**
 * `SupervisedDataset`: shuffles and truncates the loaded records,
 * normalises the `query`/`response` schema into `instruction`/`output`,
 * and renders one (source, target) string pair per record.
 */
module Dataset {
  import opened Results
  import opened PyList
  import opened Prompt
  import opened Tokenizers

  /** One loaded JSON object; only string-valued fields are modelled. */
  type Record = map<string, string>

  const InstructionKey: string := "instruction"
  const OutputKey: string := "output"
  const QueryKey: string := "query"
  const ResponseKey: string := "response"

  /** The exceptions the dataset code raises. */
  datatype DataError =
    | EmptyData                 // IndexError from `list_data_dict[0]` on an empty list
    | MissingKey(key: string)   // KeyError for a record lacking a field
    | IndexOutOfRange(index: int)

  /** The dataset's state after construction: parallel sources and targets. */
  datatype SupervisedData = SupervisedData(sources: seq<string>, targets: seq<string>)

  /** The normalised form of a `query`/`response` record. */
  function Renamed(instruction: string, output: string): Record {
    map[InstructionKey := instruction, OutputKey := output]
  }

  /** `{'instruction': data['query'], 'output': data['response']}`; `query` is looked up first. */
  function ConvertRecord(data: Record): (r: Result<Record, DataError>)
    ensures r.Ok? <==> QueryKey in data && ResponseKey in data
    ensures r.Ok? ==> r.value.Keys == {InstructionKey, OutputKey}
    ensures r.Ok? ==> r.value[InstructionKey] == data[QueryKey] && r.value[OutputKey] == data[ResponseKey]
    ensures r.Err? ==> r.error == MissingKey(if QueryKey in data then ResponseKey else QueryKey)
  {
    if QueryKey !in data then Err(MissingKey(QueryKey))
    else if ResponseKey !in data then Err(MissingKey(ResponseKey))
    else Ok(Renamed(data[QueryKey], data[ResponseKey]))
  }

  /** The list comprehension of `ConvertRecord` over all records; the first failure propagates. */
  function ConvertAll(rs: seq<Record>): (r: Result<seq<Record>, DataError>)
    ensures r.Ok? <==> forall k :: 0 <= k < |rs| ==> ConvertRecord(rs[k]).Ok?
    ensures r.Ok? ==> |r.value| == |rs|
    ensures r.Ok? ==> forall k :: 0 <= k < |rs| ==> r.value[k] == Renamed(rs[k][QueryKey], rs[k][ResponseKey])
    ensures r.Err? ==> exists k :: 0 <= k < |rs| && ConvertRecord(rs[k]) == Err(r.error)
                                 && forall j :: 0 <= j < k ==> ConvertRecord(rs[j]).Ok?
  {
    if |rs| == 0 then Ok([])
    else
      match ConvertRecord(rs[0])
      case Err(e) => Err(e)
      case Ok(head) =>
        match ConvertAll(rs[1..])
        case Err(e) =>
          assert forall k :: 1 <= k < |rs| ==> rs[k] == rs[1..][k - 1];
          Err(e)
        case Ok(tail) =>
          assert forall k :: 1 <= k < |rs| ==> rs[k] == rs[1..][k - 1];
          Ok([head] + tail)
  }

  /**
   * The schema check on the first record: if it has an `instruction` field
   * the records are kept as they are, otherwise every record is converted.
   */
  function NormaliseRecords(rs: seq<Record>): (r: Result<seq<Record>, DataError>)
    ensures |rs| == 0 ==> r == Err(EmptyData)
    ensures |rs| > 0 && InstructionKey in rs[0] ==> r == Ok(rs)
    ensures |rs| > 0 && InstructionKey !in rs[0] ==>
              (r.Ok? <==> forall k :: 0 <= k < |rs| ==> QueryKey in rs[k] && ResponseKey in rs[k])
    ensures |rs| > 0 && InstructionKey !in rs[0] && r.Ok? ==>
              |r.value| == |rs| && forall k :: 0 <= k < |rs| ==> r.value[k] == Renamed(rs[k][QueryKey], rs[k][ResponseKey])
    ensures |rs| > 0 && InstructionKey !in rs[0] && r.Err? ==>
              exists k :: 0 <= k < |rs| && ConvertRecord(rs[k]) == Err(r.error)
                          && forall j :: 0 <= j < k ==> ConvertRecord(rs[j]).Ok?
  {
    if |rs| == 0 then Err(EmptyData)
    else if InstructionKey in rs[0] then Ok(rs)
    else ConvertAll(rs)
  }

  /**
   * The source and target comprehensions. The sources loop visits every
   * record before the targets comprehension starts, so a missing
   * `instruction` anywhere is reported before a missing `output`.
   */
  function BuildExamples(rs: seq<Record>, tk: Tokenizer): (r: Result<SupervisedData, DataError>)
    ensures r.Ok? <==> forall k :: 0 <= k < |rs| ==> InstructionKey in rs[k] && OutputKey in rs[k]
    ensures (exists k :: 0 <= k < |rs| && InstructionKey !in rs[k]) ==> r == Err(MissingKey(InstructionKey))
    ensures r.Err? ==> r.error in {MissingKey(InstructionKey), MissingKey(OutputKey)}
    ensures (forall k :: 0 <= k < |rs| ==> InstructionKey in rs[k]) && r.Err? ==> r.error == MissingKey(OutputKey)
    ensures r.Ok? ==> |r.value.sources| == |r.value.targets| == |rs|
    ensures r.Ok? ==> forall k :: 0 <= k < |rs| ==>
              && r.value.sources[k] == RenderSource(rs[k][InstructionKey])
              && r.value.targets[k] == RenderTarget(rs[k][OutputKey], tk.eosToken)
  {
    if exists k | 0 <= k < |rs| :: InstructionKey !in rs[k] then Err(MissingKey(InstructionKey))
    else if exists k | 0 <= k < |rs| :: OutputKey !in rs[k] then Err(MissingKey(OutputKey))
    else
      Ok(SupervisedData(
           seq(|rs|, k requires 0 <= k < |rs| => RenderSource(rs[k][InstructionKey])),
           seq(|rs|, k requires 0 <= k < |rs| => RenderTarget(rs[k][OutputKey], tk.eosToken))))
  }

  /**
   * `SupervisedDataset.__init__` after loading: `random.sample` (with the
   * drawn permutation `perm`), the `[:data_length]` cut, normalisation and
   * rendering.
   */
  function MakeSupervisedData(loaded: seq<Record>, perm: seq<nat>, dataLength: int, tk: Tokenizer)
    : (r: Result<SupervisedData, DataError>)
    requires IsPermutation(perm, |loaded|)
    ensures r == Err(EmptyData) <==> SliceToLength(|loaded|, dataLength) == 0
    ensures r.Ok? ==> |r.value.sources| == |r.value.targets| == SliceToLength(|loaded|, dataLength)
    ensures var kept := SliceTo(Sample(loaded, perm), dataLength);
            |kept| > 0 ==>
              (r.Ok? <==>
                 if InstructionKey in kept[0]
                 then forall k :: 0 <= k < |kept| ==> InstructionKey in kept[k] && OutputKey in kept[k]
                 else forall k :: 0 <= k < |kept| ==> QueryKey in kept[k] && ResponseKey in kept[k])
    ensures SliceToLength(|loaded|, dataLength) > 0 && r.Err? ==>
              r.error in {MissingKey(InstructionKey), MissingKey(OutputKey), MissingKey(QueryKey), MissingKey(ResponseKey)}
  {
    var kept := SliceTo(Sample(loaded, perm), dataLength);
    match NormaliseRecords(kept)
    case Err(e) => Err(e)
    case Ok(rs) =>
      assert |rs| == |kept|;
      assert InstructionKey !in kept[0] ==> forall j :: 0 <= j < |rs| ==> rs[j].Keys == {InstructionKey, OutputKey};
      BuildExamples(rs, tk)
  }

  /** `__len__`. */
  function Length(d: SupervisedData): nat {
    |d.sources|
  }

  /** `__getitem__`: the raw (source, target) pair; Python negative indices count from the end. */
  function GetItem(d: SupervisedData, i: int): (r: Result<(string, string), DataError>)
    requires |d.sources| == |d.targets|
    ensures r.Ok? <==> -(Length(d) as int) <= i < Length(d)
    ensures r.Ok? ==> r.value == (d.sources[i % Length(d)], d.targets[i % Length(d)])
    ensures r.Err? ==> r.error == IndexOutOfRange(i)
  {
    match (Index(d.sources, i), Index(d.targets, i))
    case (Some(s), Some(t)) => Ok((s, t))
    case _ => Err(IndexOutOfRange(i))
  }

  /** Every rendered pair gives back its record's instruction and output. */
  lemma ExamplesRecoverRecords(rs: seq<Record>, tk: Tokenizer, k: nat)
    requires BuildExamples(rs, tk).Ok?
    requires k < |rs|
    ensures ParseSource(BuildExamples(rs, tk).value.sources[k]) == Some(rs[k][InstructionKey])
    ensures StripEos(BuildExamples(rs, tk).value.targets[k], tk.eosToken) == Some(rs[k][OutputKey])
  {
    ParseRenderSource(rs[k][InstructionKey]);
    StripRenderTarget(rs[k][OutputKey], tk.eosToken);
  }

  /**
   * When the first record has no `instruction` field and every record has
   * `query` and `response`, construction succeeds and example `k` is the
   * rendering of record `k`'s query and response, unchanged.
   */
  lemma QueryResponseExamples(rs: seq<Record>, tk: Tokenizer, k: nat)
    requires |rs| > 0 && InstructionKey !in rs[0]
    requires forall j :: 0 <= j < |rs| ==> QueryKey in rs[j] && ResponseKey in rs[j]
    requires k < |rs|
    ensures NormaliseRecords(rs).Ok?
    ensures BuildExamples(NormaliseRecords(rs).value, tk).Ok?
    ensures ParseSource(BuildExamples(NormaliseRecords(rs).value, tk).value.sources[k]) == Some(rs[k][QueryKey])
    ensures StripEos(BuildExamples(NormaliseRecords(rs).value, tk).value.targets[k], tk.eosToken) == Some(rs[k][ResponseKey])
  {
    var normalised := NormaliseRecords(rs).value;
    assert forall j :: 0 <= j < |normalised| ==> normalised[j].Keys == {InstructionKey, OutputKey};
    ExamplesRecoverRecords(normalised, tk, k);
  }

  /**
   * Example `k` of a constructed dataset renders the `k`-th record of the
   * shuffled list: its `instruction`/`output` when the first shuffled record
   * has an `instruction` field, its `query`/`response` otherwise.
   */
  lemma SupervisedDataContent(loaded: seq<Record>, perm: seq<nat>, dataLength: int, tk: Tokenizer, k: nat)
    requires IsPermutation(perm, |loaded|)
    requires MakeSupervisedData(loaded, perm, dataLength, tk).Ok?
    requires k < |MakeSupervisedData(loaded, perm, dataLength, tk).value.sources|
    ensures k < |perm| && perm[k] < |loaded| && perm[0] < |loaded|
    ensures var d, rec := MakeSupervisedData(loaded, perm, dataLength, tk).value, loaded[perm[k]];
            && (InstructionKey in loaded[perm[0]] ==>
                  && InstructionKey in rec && OutputKey in rec
                  && d.sources[k] == RenderSource(rec[InstructionKey])
                  && d.targets[k] == RenderTarget(rec[OutputKey], tk.eosToken))
            && (InstructionKey !in loaded[perm[0]] ==>
                  && QueryKey in rec && ResponseKey in rec
                  && d.sources[k] == RenderSource(rec[QueryKey])
                  && d.targets[k] == RenderTarget(rec[ResponseKey], tk.eosToken))
  {
    var shuffled := Sample(loaded, perm);
    var kept := SliceTo(shuffled, dataLength);
    assert kept[k] == loaded[perm[k]];
    assert kept[0] == loaded[perm[0]];
    var rs := NormaliseRecords(kept).value;
    if InstructionKey !in kept[0] {
      assert rs[k] == Renamed(kept[k][QueryKey], kept[k][ResponseKey]);
    }
  }
}

=== FILE: masking.dfy ===
/**
 * `preprocess` and `_tokenize_fn`: tokenize `source + target`, count the
 * non-pad ids of the tokenized source, and hide that many leading label
 * positions from the loss.
 */
module Masking {
  import opened Seqs
  import opened Tokenizers

  /** The label value the loss function skips. */
  const IgnoreIndex: int := -100

  /** Parallel per-example `input_ids` and `labels` rows, unpadded. */
  datatype Tokenized = Tokenized(inputIds: seq<seq<int>>, labels: seq<seq<int>>)

  /**
   * `label[:n] = IGNORE_INDEX` applied to a copy of `ids`. Python slicing
   * clamps `n` to the row length, so masking never reaches past the row.
   */
  function MaskPrefix(ids: seq<int>, n: nat): (labels: seq<int>)
    ensures |labels| == |ids|
    ensures forall i :: 0 <= i < |ids| ==> labels[i] == (if i < n then IgnoreIndex else ids[i])
  {
    var m := if n <= |ids| then n else |ids|;
    Fill(m, IgnoreIndex) + ids[m..]
  }

  /** The `input_ids` row of one example: the tokenized concatenation of source and target. */
  function ExampleIds(tk: Tokenizer, source: string, target: string): seq<int> {
    Tokenize(tk, source + target)
  }

  /** The `labels` row of one example. */
  function ExampleLabels(tk: Tokenizer, source: string, target: string): (labels: seq<int>)
    ensures |labels| == |ExampleIds(tk, source, target)|
    ensures forall i :: 0 <= i < |labels| ==>
              labels[i] == (if i < NonPadLength(tk, source) then IgnoreIndex else ExampleIds(tk, source, target)[i])
  {
    MaskPrefix(ExampleIds(tk, source, target), NonPadLength(tk, source))
  }

  /**
   * `preprocess(sources, targets, tokenizer)`. Both `zip`s stop at the
   * shorter list, so only the first `min(|sources|, |targets|)` pairs are
   * used. `labels` is a deep copy, so masking leaves `input_ids` as tokenized.
   */
  function Preprocess(tk: Tokenizer, sources: seq<string>, targets: seq<string>): (r: Tokenized)
    ensures |r.inputIds| == |r.labels| == (if |sources| <= |targets| then |sources| else |targets|)
    ensures forall k :: 0 <= k < |r.inputIds| ==> r.inputIds[k] == Tokenize(tk, sources[k] + targets[k])
    ensures forall k :: 0 <= k < |r.inputIds| ==>
              |r.labels[k]| == |r.inputIds[k]| <= tk.modelMaxLength
    ensures forall k, i :: 0 <= k < |r.inputIds| && 0 <= i < |r.inputIds[k]| ==>
              r.labels[k][i] == (if i < NonPadLength(tk, sources[k]) then IgnoreIndex else r.inputIds[k][i])
  {
    var n := if |sources| <= |targets| then |sources| else |targets|;
    Tokenized(
      seq(n, k requires 0 <= k < n => ExampleIds(tk, sources[k], targets[k])),
      seq(n, k requires 0 <= k < n => ExampleLabels(tk, sources[k], targets[k])))
  }

  /**
   * With a tokenizer that encodes `source + target` as the source's ids
   * followed by `tail`, and no pad id among the source's ids, exactly the
   * source's ids are hidden and the loss sees exactly `tail`.
   */
  lemma MaskedExactlySource(tk: Tokenizer, source: string, target: string, tail: seq<int>)
    requires Tokenize(tk, source + target) == Tokenize(tk, source) + tail
    requires tk.padId !in Tokenize(tk, source)
    ensures ExampleLabels(tk, source, target) == Fill(|Tokenize(tk, source)|, IgnoreIndex) + tail
  {
    var src := Tokenize(tk, source);
    var labels := ExampleLabels(tk, source, target);
    assert NonPadLength(tk, source) == |src|;
    assert |labels| == |src| + |tail|;
    forall i | 0 <= i < |labels|
      ensures labels[i] == (Fill(|src|, IgnoreIndex) + tail)[i]
    {
      if i >= |src| {
        assert ExampleIds(tk, source, target)[i] == tail[i - |src|];
      }
    }
  }

  /**
   * The same tokenizer, but the source's ids contain the pad id: the count
   * falls short and the source ids from the count up to the source's end
   * stay visible to the loss.
   */
  lemma PadInSourceLeaksPrompt(tk: Tokenizer, source: string, target: string, tail: seq<int>)
    requires Tokenize(tk, source + target) == Tokenize(tk, source) + tail
    requires tk.padId in Tokenize(tk, source)
    ensures NonPadLength(tk, source) < |Tokenize(tk, source)|
    ensures ExampleLabels(tk, source, target)[NonPadLength(tk, source)..|Tokenize(tk, source)|]
            == Tokenize(tk, source)[NonPadLength(tk, source)..]
  {
    var src := Tokenize(tk, source);
    var n := NonPadLength(tk, source);
    var labels := ExampleLabels(tk, source, target);
    forall i | n <= i < |src|
      ensures labels[i] == src[i]
    {
      assert ExampleIds(tk, source, target)[i] == src[i];
    }
  }
}

=== FILE: prompt.dfy ===
/**
 * The prompt template (`PROMPT_DICT["prompt_input"]`) and the rendering of
 * one record into its source (prompt) and target (completion) strings.
 */
module Prompt {
  import opened Results

  /** The template text before its single `{instruction}` field. */
  const TemplatePrefix: string := "<|user|>:\n"

  /** The template text after its single `{instruction}` field. */
  const TemplateSuffix: string := "\n<|assistant|>: Let's think step by step and solve the problem with code."

  /** `w` occurs in `s` starting at position `k`. */
  predicate OccursAt(w: string, s: string, k: nat) {
    k + |w| <= |s| && s[k..k + |w|] == w
  }

  /** `w` occurs somewhere in `s` as a contiguous substring. */
  predicate Contains(s: string, w: string) {
    exists k: nat | k <= |s| :: OccursAt(w, s, k)
  }

  /** `prompt_input.format_map(example)`: the template with the instruction substituted. */
  function FormatPromptInput(instruction: string): (r: string)
    ensures |r| == |TemplatePrefix| + |instruction| + |TemplateSuffix|
    ensures r[..|TemplatePrefix|] == TemplatePrefix
    ensures r[|r| - |TemplateSuffix|..] == TemplateSuffix
    ensures OccursAt(instruction, r, |TemplatePrefix|)
  {
    TemplatePrefix + instruction + TemplateSuffix
  }

  /** The source of a record: empty for an empty instruction, else the filled-in template. */
  function RenderSource(instruction: string): (r: string)
    ensures r == "" <==> instruction == ""
    ensures instruction != "" ==> Contains(r, instruction) && |r| > |instruction|
  {
    if instruction == "" then "" else FormatPromptInput(instruction)
  }

  /**
   * Recovers the instruction a source was rendered from, or `None` when
   * the string is not a rendered source.
   */
  function ParseSource(source: string): (r: Option<string>)
  {
    if source == "" then Some("")
    else if |source| > |TemplatePrefix| + |TemplateSuffix|
         && source[..|TemplatePrefix|] == TemplatePrefix
         && source[|source| - |TemplateSuffix|..] == TemplateSuffix
    then Some(source[|TemplatePrefix|..|source| - |TemplateSuffix|])
    else None
  }

  /** Rendering is injective: the instruction is recoverable from its source. */
  lemma ParseRenderSource(instruction: string)
    ensures ParseSource(RenderSource(instruction)) == Some(instruction)
  {
    if instruction != "" {
      var r := RenderSource(instruction);
      assert r[|TemplatePrefix|..|r| - |TemplateSuffix|] == instruction;
    }
  }

  /** Every string the parser accepts is the rendering of what it returns. */
  lemma RenderParseSource(source: string, instruction: string)
    ensures ParseSource(source) == Some(instruction) <==> RenderSource(instruction) == source
  {
    if RenderSource(instruction) == source {
      ParseRenderSource(instruction);
    }
    if ParseSource(source) == Some(instruction) && source != "" {
      assert source == source[..|TemplatePrefix|]
        + source[|TemplatePrefix|..|source| - |TemplateSuffix|]
        + source[|source| - |TemplateSuffix|..];
    }
  }

  /** The target of a record: its output followed by the end-of-sequence token string. */
  function RenderTarget(output: string, eos: string): (r: string)
    ensures |r| == |output| + |eos|
    ensures r[..|output|] == output && r[|output|..] == eos
  {
    output + eos
  }

  /** Removes a trailing `eos` from a target, or `None` when it does not end with one. */
  function StripEos(target: string, eos: string): (r: Option<string>)
  {
    if |eos| <= |target| && target[|target| - |eos|..] == eos
    then Some(target[..|target| - |eos|])
    else None
  }

  /** The output is recoverable from its target: rendering then stripping is the identity. */
  lemma StripRenderTarget(output: string, eos: string)
    ensures StripEos(RenderTarget(output, eos), eos) == Some(output)
  {
  }
}

=== FILE: pylist.dfy ===
/**
 * The parts of Python's list semantics the data pipeline relies on:
 * `xs[:n]` (with a possibly negative `n`), `random.sample(xs, len(xs))`
 * with the random permutation taken as an input, and `xs[i]` with
 * negative indices counting from the end.
 */
module PyList {
  import opened Results

  /** The length Python gives `xs[:n]` for a list of length `len`. */
  function SliceToLength(len: nat, n: int): nat {
    if n >= 0 then (if n <= len then n else len)
    else if -n <= len then len + n else 0
  }

  /** `xs[:n]`: a negative `n` drops the last `-n` elements. */
  function SliceTo<T>(xs: seq<T>, n: int): (r: seq<T>)
    ensures |r| == SliceToLength(|xs|, n)
    ensures r == xs[..|r|]
    ensures n >= 0 ==> |r| == (if n < |xs| then n else |xs|)
  {
    if n >= 0 then (if n <= |xs| then xs[..n] else xs)
    else if -n <= |xs| then xs[..|xs| + n] else []
  }

  /** `[0, 1, ..., n-1]`. */
  function Range(n: nat): (r: seq<nat>)
    ensures |r| == n
    ensures forall i :: 0 <= i < n ==> r[i] == i
  {
    seq(n, i => i)
  }

  /** Every index in `idx` is a position of a list of length `n`. */
  predicate AllBelow(idx: seq<nat>, n: nat) {
    forall k :: 0 <= k < |idx| ==> idx[k] < n
  }

  lemma AllBelowAppend(a: seq<nat>, b: seq<nat>, n: nat)
    ensures AllBelow(a + b, n) <==> AllBelow(a, n) && AllBelow(b, n)
  {
    if AllBelow(a, n) && AllBelow(b, n) {
      forall k | 0 <= k < |a + b|
        ensures (a + b)[k] < n
      {
        if k >= |a| {
          assert (a + b)[k] == b[k - |a|];
        }
      }
    }
    if AllBelow(a + b, n) {
      forall k | 0 <= k < |a|
        ensures a[k] < n
      {
        assert (a + b)[k] == a[k];
      }
      forall k | 0 <= k < |b|
        ensures b[k] < n
      {
        assert (a + b)[|a| + k] == b[k];
      }
    }
  }

  /** The elements of `xs` at the positions `idx`, in that order. */
  function Pick<T>(xs: seq<T>, idx: seq<nat>): (r: seq<T>)
    requires AllBelow(idx, |xs|)
    ensures |r| == |idx|
    ensures forall k :: 0 <= k < |idx| ==> r[k] == xs[idx[k]]
  {
    seq(|idx|, k requires 0 <= k < |idx| => xs[idx[k]])
  }

  /** `perm` lists every index below `n` exactly once. */
  ghost predicate IsPermutation(perm: seq<nat>, n: nat) {
    multiset(perm) == multiset(Range(n))
  }

  lemma PermutationBounds(perm: seq<nat>, n: nat)
    requires IsPermutation(perm, n)
    ensures |perm| == n
    ensures AllBelow(perm, n)
  {
    assert |perm| == |multiset(perm)| == |multiset(Range(n))| == n;
    forall k | 0 <= k < |perm|
      ensures perm[k] < n
    {
      assert perm[k] in multiset(perm);
      assert perm[k] in Range(n);
    }
  }

  /** Picking distributes over concatenation of the index lists. */
  lemma PickAppend<T>(xs: seq<T>, a: seq<nat>, b: seq<nat>)
    requires AllBelow(a, |xs|)
    requires AllBelow(b, |xs|)
    ensures Pick(xs, a + b) == Pick(xs, a) + Pick(xs, b)
  {
  }

  /** Removing position `k` from `b` removes one `b[k]` from its multiset. */
  lemma RemoveAt(b: seq<nat>, k: nat)
    requires k < |b|
    ensures b == b[..k] + [b[k]] + b[k + 1..]
    ensures multiset(b[..k] + b[k + 1..]) == multiset(b) - multiset{b[k]}
  {
    assert b == b[..k] + [b[k]] + b[k + 1..];
  }

  /** Picking by two index lists with the same multiset picks the same multiset of elements. */
  lemma {:induction false} PickMultiset<T>(xs: seq<T>, a: seq<nat>, b: seq<nat>)
    requires AllBelow(a, |xs|)
    requires AllBelow(b, |xs|)
    requires multiset(a) == multiset(b)
    ensures multiset(Pick(xs, a)) == multiset(Pick(xs, b))
  {
    if |a| == 0 {
      assert |b| == |multiset(b)| == 0;
    } else {
      var x := a[0];
      assert x in multiset(a);
      assert x in b;
      var k :| 0 <= k < |b| && b[k] == x;
      RemoveAt(b, k);
      var pre, post := b[..k], b[k + 1..];
      var rest := a[1..];
      assert a == [x] + rest;
      AllBelowAppend([x], rest, |xs|);
      AllBelowAppend(pre + [x], post, |xs|);
      AllBelowAppend(pre, [x], |xs|);
      AllBelowAppend(pre, post, |xs|);
      assert multiset(rest) == multiset(pre + post);
      PickMultiset(xs, rest, pre + post);
      PickMultisetSplice(xs, x, rest, pre, post);
    }
  }

  /** The inductive step of `PickMultiset`: `x` moved from the front to between `pre` and `post`. */
  lemma PickMultisetSplice<T>(xs: seq<T>, x: nat, rest: seq<nat>, pre: seq<nat>, post: seq<nat>)
    requires x < |xs| && AllBelow(rest, |xs|) && AllBelow(pre, |xs|) && AllBelow(post, |xs|)
    requires AllBelow([x] + rest, |xs|) && AllBelow(pre + post, |xs|)
    requires AllBelow(pre + [x], |xs|) && AllBelow(pre + [x] + post, |xs|)
    requires multiset(Pick(xs, rest)) == multiset(Pick(xs, pre + post))
    ensures multiset(Pick(xs, [x] + rest)) == multiset(Pick(xs, pre + [x] + post))
  {
    PickAppend(xs, [x], rest);
    PickAppend(xs, pre, post);
    PickAppend(xs, pre + [x], post);
    PickAppend(xs, pre, [x]);
    assert Pick(xs, [x]) == [xs[x]];
  }

  /**
   * `random.sample(xs, len(xs))`: `xs` reordered by the permutation the
   * random number generator would have drawn.
   */
  function Sample<T>(xs: seq<T>, perm: seq<nat>): (r: seq<T>)
    requires IsPermutation(perm, |xs|)
    ensures |r| == |xs|
    ensures |perm| == |xs| && AllBelow(perm, |xs|)
    ensures forall k :: 0 <= k < |xs| ==> r[k] == xs[perm[k]]
    ensures multiset(r) == multiset(xs)
  {
    PermutationBounds(perm, |xs|);
    var r := Pick(xs, perm);
    PickMultiset(xs, perm, Range(|xs|));
    assert Pick(xs, Range(|xs|)) == xs;
    r
  }

  /** Python's `xs[i]`: valid for `-len <= i < len`, else `IndexError`. */
  function Index<T>(xs: seq<T>, i: int): (r: Option<T>)
    ensures r.Some? <==> -|xs| <= i < |xs|
    ensures r.Some? ==> r.value == xs[i % |xs|]
  {
    if 0 <= i < |xs| then Some(xs[i])
    else if -|xs| <= i < 0 then Some(xs[|xs| + i])
    else None
  }
}

=== FILE: results.dfy ===
/** Failure-carrying return values, used where the Python code raises. */
module Results {

  /** A value or the error the source would raise instead of returning it. */
  datatype Result<+T, +E> = Ok(value: T) | Err(error: E)

  /** A value that may be absent. */
  datatype Option<+T> = None | Some(value: T)
}

=== FILE: seqs.dfy ===
/** Counting, filling and maximum helpers over sequences of token ids. */
module Seqs {

  /** `n` copies of `v`. */
  function Fill<T>(n: nat, v: T): (r: seq<T>)
    ensures |r| == n
    ensures forall j :: 0 <= j < n ==> r[j] == v
  {
    seq(n, _ => v)
  }

  /** Number of entries of `s` that differ from `pad` (torch's `ids.ne(pad).sum()`). */
  function CountNonPad(s: seq<int>, pad: int): (r: nat)
    ensures r <= |s|
  {
    if |s| == 0 then 0
    else (if s[0] != pad then 1 else 0) + CountNonPad(s[1..], pad)
  }

  /** Number of `true` entries of `s`. */
  function CountTrue(s: seq<bool>): (r: nat)
    ensures r <= |s|
  {
    if |s| == 0 then 0
    else (if s[0] then 1 else 0) + CountTrue(s[1..])
  }

  /** The length of the longest row; 0 for no rows. */
  function MaxLen<T>(rows: seq<seq<T>>): (m: nat)
    ensures forall b :: 0 <= b < |rows| ==> |rows[b]| <= m
    ensures |rows| > 0 ==> exists b :: 0 <= b < |rows| && |rows[b]| == m
    ensures |rows| == 0 ==> m == 0
  {
    if |rows| == 0 then 0
    else
      var rest := MaxLen(rows[1..]);
      assert forall b :: 1 <= b < |rows| ==> rows[b] == rows[1..][b - 1];
      if |rows[0]| >= rest then |rows[0]| else rest
  }

  /** Every row has length `n`. */
  predicate AllOfLength<T>(rows: seq<seq<T>>, n: nat) {
    forall b :: 0 <= b < |rows| ==> |rows[b]| == n
  }

  /** All entries are counted exactly when `pad` does not occur. */
  lemma {:induction false} CountNonPadAllIff(s: seq<int>, pad: int)
    ensures CountNonPad(s, pad) == |s| <==> pad !in s
  {
    if |s| > 0 {
      CountNonPadAllIff(s[1..], pad);
      assert s == [s[0]] + s[1..];
      assert pad in s <==> s[0] == pad || pad in s[1..];
    }
  }

  /** Counting non-pad entries distributes over concatenation. */
  lemma {:induction false} CountNonPadAppend(s: seq<int>, t: seq<int>, pad: int)
    ensures CountNonPad(s + t, pad) == CountNonPad(s, pad) + CountNonPad(t, pad)
  {
    if |s| == 0 {
      assert s + t == t;
    } else {
      assert (s + t)[1..] == s[1..] + t;
      CountNonPadAppend(s[1..], t, pad);
    }
  }

  /** A run of padding holds no counted entry. */
  lemma {:induction false} CountNonPadFill(n: nat, pad: int)
    ensures CountNonPad(Fill(n, pad), pad) == 0
  {
    if n > 0 {
      assert Fill(n, pad)[1..] == Fill(n - 1, pad);
      CountNonPadFill(n - 1, pad);
    }
  }

  /** The `true` entries of a pointwise `!= pad` test are the non-pad entries. */
  lemma {:induction false} CountTrueOfNotPad(s: seq<int>, pad: int)
    ensures CountTrue(seq(|s|, j requires 0 <= j < |s| => s[j] != pad)) == CountNonPad(s, pad)
  {
    var m := seq(|s|, j requires 0 <= j < |s| => s[j] != pad);
    if |s| > 0 {
      assert m[1..] == seq(|s[1..]|, j requires 0 <= j < |s[1..]| => s[1..][j] != pad);
      CountTrueOfNotPad(s[1..], pad);
    }
  }
}

=== FILE: tokenizer.dfy ===
/**
 * The tokenizer as the pipeline sees it: an uninterpreted encoding whose
 * output the `truncation=True, max_length=model_max_length` call bounds,
 * plus the pad id and the end-of-sequence token string.
 */
module Tokenizers {
  import opened Seqs

  datatype TokenizerSpec = TokenizerSpec(
    encode: string -> seq<int>,  // the subword algorithm, special tokens and truncation included
    modelMaxLength: nat,
    padId: int,
    eosToken: string)

  /** Truncation: no text encodes to more than `modelMaxLength` ids. */
  ghost predicate Truncating(t: TokenizerSpec) {
    forall text :: |t.encode(text)| <= t.modelMaxLength
  }

  type Tokenizer = t: TokenizerSpec | Truncating(t) witness TokenizerSpec(_ => [], 0, 0, "")

  /**
   * `tokenizer(text, padding="longest", ...).input_ids[0]`: for a single
   * text "longest" padding adds nothing, so this is the encoding itself.
   */
  function Tokenize(tk: Tokenizer, text: string): (ids: seq<int>)
    ensures |ids| <= tk.modelMaxLength
  {
    tk.encode(text)
  }

  /**
   * `input_ids_lens` of `_tokenize_fn`: the number of ids of the encoding
   * that differ from the pad id. It is compared by value, so a genuine
   * token equal to the pad id is not counted.
   */
  function NonPadLength(tk: Tokenizer, text: string): (n: nat)
    ensures n <= |Tokenize(tk, text)| <= tk.modelMaxLength
    ensures n == |Tokenize(tk, text)| <==> tk.padId !in Tokenize(tk, text)
  {
    CountNonPadAllIff(Tokenize(tk, text), tk.padId);
    CountNonPad(Tokenize(tk, text), tk.padId)
  }
}
